=== FILE: README.md ===
# TaskTracker core, modelled in Dafny

TaskTracker is a single-user to-do application: an Express server keeps one `tasks`
table (id, title, due date, priority 1-3, completed flag) behind four JSON endpoints,
and a React client lists the tasks and raises toasts for urgent ones. This project
models the parts of it whose behaviour can be stated exactly:

- `schema.dfy` (module `Schema`): the row shape, the creation validator with its
  error messages, and the priority labels.
- `storage.dfy` (module `Storage`): the table as a map from id to row plus the
  serial counter; class `TaskStore` applies the four SQL statements in place.
- `routes.dfy` (module `Routes`): the static-asset cache rule and the four
  handlers, which pick status codes, headers and bodies from validator and store outcomes.
- `task_list.dfy` (module `TaskList`): the active/completed split, the comparator
  sort and the tab counts.
- `notifications.dfy` (module `Notifications`): the due-soon selection and the
  toast loop.
- `server_log.dfy` (module `RequestLog`): the request-log line and its
  truncation, and the final error handler's status and message.
- `outcomes.dfy` (module `Outcomes`): `Option` and `Result`.

Due dates and clock readings are integer milliseconds. Three things are parameters:
the date coercion of the validator (`toDate`, None for an invalid date), JSON
serialisation in the log (`stringify`) and a database failure during an insert
(`storeFault`).

Three details of the code the model keeps:
- `id`, `completed` and any other extra key in a creation body are silently dropped, not rejected.
- The toggle and delete handlers do not look the id up first. They run the statement and answer 404 when it touched no row.
- The POST handler's 500 message is "Internal server error". The final error handler's is "Internal Server Error".

## Model

| member | source | states |
|---|---|---|
| Schema.TitleIssue | TaskTracker/shared/schema.ts:16 | the title passes iff it is a string of 1..100 characters; a missing title is "Required" and an empty one is the custom "Title is required" issue |
| Schema.DateIssue | TaskTracker/shared/schema.ts:18 | the due date passes iff the date coercion yields an instant; otherwise the issue is "Invalid date" |
| Schema.PriorityIssue | TaskTracker/shared/schema.ts:17 | the priority passes iff it is a number in 1..3; a missing one is "Required", and out-of-range values give the too-small or too-large issue |
| Schema.Issues | TaskTracker/shared/schema.ts:16-18 | at most three issues; none iff all three fields pass; a title issue comes first and a priority issue last |
| Schema.ValidateCreate | TaskTracker/shared/schema.ts:13-19 | accepts iff title is a string of 1..100 chars, the date coerces and priority is a number in 1..3; the accepted data carries the input title, date and priority unchanged and is well formed; a rejection carries at least one issue |
| Schema.Message | TaskTracker/shared/schema.ts:16 | every issue has a non-empty message, and "Title is required" is the message of the empty-title issue and of no other |
| Schema.FirstMessage | TaskTracker/server/routes.ts:29 | the 400 message is never empty, and it is "Title is required" exactly when the first issue is the empty title |
| Schema.EmptyTitleRejected | TaskTracker/shared/schema.ts:16 | an empty title is rejected and the first reported message is "Title is required", whatever the other fields hold |
| Schema.LongTitleRejected | TaskTracker/shared/schema.ts:16 | a title longer than 100 characters is rejected, and that is the first issue reported |
| Schema.PriorityOutOfRangeRejected | TaskTracker/shared/schema.ts:17 | a priority below 1 or above 3 is rejected with the matching too-small or too-large issue |
| Schema.OnlySchemaKeysMatter | TaskTracker/shared/schema.ts:13-14 | adding keys other than title, dueDate and priority (`id` and `completed` among them) never changes the outcome: they are stripped |
| Schema.PriorityLabel | TaskTracker/shared/schema.ts:24-28 | a label exists exactly for priorities 1..3, and it is Low, Medium, High respectively |
| Schema.PriorityLabelsExact | TaskTracker/shared/schema.ts:24-28 | the label map is defined exactly on {1,2,3} and no two priorities share a label |
| Storage.NewRow | TaskTracker/server/storage.ts:19-22 | the inserted row has the given id, title, due date and priority, and is not completed (the column default of TaskTracker/shared/schema.ts:10); well-formed data gives a well-formed row |
| Storage.SetCompleted | TaskTracker/server/storage.ts:27-31 | the update keeps the key set, sets `completed` on the matching row and leaves every other row as it was |
| Storage.SetCompletedFrame | TaskTracker/server/storage.ts:26-32 | the update keeps the key set, changes only `completed` of the matching row, and changes nothing when no row has the id |
| Storage.ToggleRoundTrip | TaskTracker/server/storage.ts:26-32 | setting completed to true and then to false restores a row that started open, and the whole table with it |
| Storage.Remove | TaskTracker/server/storage.ts:36-39 | after the delete no row has the id, every other row is kept unchanged, and the table shrinks by one exactly when the id was present |
| Storage.RemoveFrame | TaskTracker/server/storage.ts:35-41 | after the delete no row has the id and every other row is untouched |
| Storage.TaskStore.constructor | TaskTracker/shared/schema.ts:5-11 | a new table is empty and its serial starts at 1 |
| Storage.TaskStore.GetTasks | TaskTracker/server/storage.ts:13-16 | returns every row exactly once (no duplicates, nothing else) and changes nothing |
| Storage.TaskStore.CreateTask | TaskTracker/server/storage.ts:18-24 | returns a row with the given title, due date and priority, completed false and an id no row had; the table gains exactly that row and the serial advances |
| Storage.TaskStore.UpdateTask | TaskTracker/server/storage.ts:26-33 | returns the matching row with the new flag iff the id existed; the table changes only there; an absent id returns None and leaves the table as it was |
| Storage.TaskStore.DeleteTask | TaskTracker/server/storage.ts:35-41 | returns true iff a row had the id; afterwards that row is gone and the others are untouched |
| Storage.DeleteTwice | TaskTracker/server/storage.ts:35-41 | deleting an existing id twice reports true, then false |
| Routes.IsStaticAsset | TaskTracker/server/routes.ts:10 | a URL is an asset iff it ends with one of the seven listed extensions |
| Routes.EndsWithAny | TaskTracker/server/routes.ts:10 | true iff the URL ends with one of the listed endings |
| Routes.CacheHeaders | TaskTracker/server/routes.ts:9-14 | the one-year directive is set for asset URLs and nothing is touched otherwise |
| Routes.StaticAssetSuffixes | TaskTracker/server/routes.ts:10 | a URL is an asset iff the whole URL ends in .js, .css, .png, .jpg, .jpeg, .gif or .ico |
| Routes.StaticAssetExamples | TaskTracker/server/routes.ts:10 | the match is case-sensitive and a query string after the extension defeats it |
| Routes.HandleList | TaskTracker/server/routes.ts:16-20 | answers 200 with every row exactly once and the revalidation directive |
| Routes.HandleCreate | TaskTracker/server/routes.ts:22-34 | invalid body: 400 with the first issue's message and the store untouched; insert failure: 500 "Internal server error"; otherwise 201 with the new row, which the table gains, and the serial advances; every row stays well formed |
| Routes.HandleToggle | TaskTracker/server/routes.ts:36-50 | a non-boolean or missing `completed` gives 400 "completed must be a boolean" with the store untouched; a missing id gives 404 "Task not found"; otherwise 200 with the updated row |
| Routes.HandleDelete | TaskTracker/server/routes.ts:52-61 | the row is removed; 204 with no body if it existed, else 404 "Task not found" |
| Routes.Serve | TaskTracker/server/routes.ts:9-61 | the cache middleware runs before the handlers; the id serial never goes back and moves only on a successful insert, so no id is reused; non-API requests get no response and leave the table alone; each route gets its handler's outcome: list 200 with every row, create 400/500/201 with the new row added only on 201, toggle 400 with the table untouched or the update then 404/200, delete removes the row then 204/404; a task list always carries the revalidation directive, any other API response to an asset URL the one-year one; well-formed rows stay well formed |
| TaskList.Compare | TaskTracker/client/src/components/TaskList.tsx:40-41 | `a` may stand before `b` iff its priority is higher, or the priorities are equal and its due date is not later |
| TaskList.Insert | TaskTracker/client/src/components/TaskList.tsx:40-41 | inserting into an ordered list keeps it ordered and adds exactly the one task |
| TaskList.Sort | TaskTracker/client/src/components/TaskList.tsx:40-41 | the result is ordered by the comparator and is a permutation of the input |
| TaskList.SortIsStable | TaskTracker/client/src/components/TaskList.tsx:40-41 | tasks with equal priority and due date keep their input order |
| TaskList.TasksOrEmpty | TaskTracker/client/src/components/TaskList.tsx:39 | data not yet fetched reads as the empty list; fetched data is used as it is |
| TaskList.Filter | TaskTracker/client/src/components/TaskList.tsx:39 | keeps only tasks with the requested flag, drawn from the input |
| TaskList.FilterAppend | TaskTracker/client/src/components/TaskList.tsx:39 | filtering a concatenation is the concatenation of the filtered parts, so the filter keeps input order |
| TaskList.TiesOfFilter | TaskTracker/client/src/components/TaskList.tsx:39 | filtering by flag and picking the tasks of one sort key commute |
| TaskList.ActiveTasks | TaskTracker/client/src/components/TaskList.tsx:39-42 | every task in the active list is open; the list is ordered and a permutation of the open input tasks |
| TaskList.CompletedTasks | TaskTracker/client/src/components/TaskList.tsx:44-47 | every task in the completed list is done; the list is ordered and a permutation of the done input tasks |
| TaskList.ListsKeepFetchOrderOfTies | TaskTracker/client/src/components/TaskList.tsx:39-47 | in each list, tasks with equal priority and due date appear in the order they were fetched |
| TaskList.FilterSplits | TaskTracker/client/src/components/TaskList.tsx:39-47 | the two filters together hold every input task exactly as often as the input does |
| TaskList.Partition | TaskTracker/client/src/components/TaskList.tsx:39-47 | the two lists together are a permutation of the input and their lengths add up to its length |
| TaskList.OrderedNeighbours | TaskTracker/client/src/components/TaskList.tsx:40-41 | in an ordered list priority never rises from one task to the next, and between equal priorities the due date never falls |
| TaskList.UndefinedDataIsEmpty | TaskTracker/client/src/components/TaskList.tsx:39 | data not yet fetched gives two empty lists |
| TaskList.TabCounts | TaskTracker/client/src/components/TaskList.tsx:58-61 | the tab counts are the two lists' lengths and add up to the number of tasks |
| Notifications.DueSoon | TaskTracker/client/src/components/Notifications.tsx:17-21 | a task is due soon iff it is open, of priority 3 and due strictly after now but less than 24 hours later |
| Notifications.HighPriorityTasks | TaskTracker/client/src/components/Notifications.tsx:16-22 | every selected task meets the due-soon rule, and there are no more of them than input tasks |
| Notifications.HighPriorityTasksCounts | TaskTracker/client/src/components/Notifications.tsx:16-22 | each due-soon task occurs in the selection exactly as often as in the input, and no other task occurs |
| Notifications.HighPriorityTasksSingle | TaskTracker/client/src/components/Notifications.tsx:16-22 | a single task is kept iff it meets the due-soon rule |
| Notifications.HighPriorityTasksAppend | TaskTracker/client/src/components/Notifications.tsx:16-22 | selecting from a concatenation is the concatenation of the selections, so the selection keeps input order |
| Notifications.SelectedIff | TaskTracker/client/src/components/Notifications.tsx:16-22 | a task is selected iff it is in the input, open, of priority 3, due strictly after now and less than 86,400,000 ms from now |
| Notifications.BoundaryCases | TaskTracker/client/src/components/Notifications.tsx:18-21 | a task due now or earlier, due exactly 24 h ahead, completed, or of another priority is never selected |
| Notifications.NotifyDueSoon | TaskTracker/client/src/components/Notifications.tsx:13-30 | no toasts while data is missing; otherwise exactly one toast per selected task, in input order |
| Notifications.NotifyAsWritten | TaskTracker/client/src/components/Notifications.tsx:24-30 | as written no toast is ever raised, and the effect fails exactly when some task is selected |
| Notifications.ToastLostExample | TaskTracker/client/src/components/Notifications.tsx:27 | an open priority-3 task due in one hour is selected, so the written effect loses its toast |
| RequestLog.CaptureOf | TaskTracker/dist/index.js:234-239 | a JSON response leaves a truthy capture holding its JSON text; a response with no body leaves none |
| RequestLog.DigitsValue | TaskTracker/dist/index.js:243 | the decimal digits of a natural number spell that number and have no leading zero |
| RequestLog.NumberText | TaskTracker/dist/index.js:243 | an integer prints as a minus sign exactly when it is negative, followed by decimal digits without a leading zero that spell its magnitude |
| RequestLog.Head | TaskTracker/dist/index.js:243 | the head starts with the method, a space, the path and a space, and ends with "ms" |
| RequestLog.Tail | TaskTracker/dist/index.js:244-245 | the tail is empty iff no truthy value was captured; otherwise it is " :: " followed by the JSON text |
| RequestLog.CaptureTail | TaskTracker/dist/index.js:234-245 | a response sent as JSON appends " :: " and its JSON text to the line; a 204 with no body appends nothing |
| RequestLog.Truncate | TaskTracker/dist/index.js:247-249 | a line of at most 80 characters is unchanged; a longer one becomes its first 79 characters and an ellipsis, exactly 80 long |
| RequestLog.TruncateKeepsShortPrefix | TaskTracker/dist/index.js:247-249 | any prefix shorter than 80 characters survives truncation |
| RequestLog.FinishLine | TaskTracker/dist/index.js:240-252 | a line is produced iff the path starts with "/api"; it is the head plus " :: " and the JSON text only when a truthy body was captured, cut to at most 80 characters |
| RequestLog.HeadLeadsLine | TaskTracker/dist/index.js:243-248 | a head (method, path, status, "in <d>ms") shorter than 80 characters always begins the logged line |
| RequestLog.ErrorStatus | TaskTracker/dist/index.js:258 | `err.status` if truthy, else `err.statusCode` if truthy, else 500; never 0 |
| RequestLog.ErrorMessage | TaskTracker/dist/index.js:259 | `err.message` if non-empty, else "Internal Server Error"; never empty |
| RequestLog.ErrorResponse | TaskTracker/dist/index.js:257-261 | the error response carries that status and a non-empty message |

## Left out

- Database connection, pool, websocket set-up and the `DATABASE_URL` check: I/O. The table is an abstract map, and each statement has the effect stated above.
- Database failures of the list, toggle and delete statements: the handlers do not catch them, so they are not modelled. Only an insert failure is, as `storeFault`, and then no row is written.
- Storage.TaskStore.GetTasks: the scan goes by ascending id. The contract promises no order, matching a SELECT without ORDER BY.
- Storage.TaskStore.CreateTask: the 32-bit limit of the serial id column is not modelled; ids are unbounded integers.
- Date parsing: `z.coerce.date()` and `new Date(...)` are library behaviour. The coercion is the `toDate` parameter, and invalid dates in comparisons are not modelled.
- Schema.ValidateCreate: priority is an integer. The schema's number check would also accept fractions such as 2.5, and NaN is not modelled.
- Schema.Message: messages other than "Title is required" are the validation library's defaults and are taken as given.
- Schema.ValidateCreate: issues are reported in the schema's key order (title, due date, priority). That order comes from the validation library. Title lengths count characters, not UTF-16 code units.
- A creation body whose JSON root is not an object, such as an array: requests are modelled with an object body. The code answers 400 with "Expected object, received array" for an array root; the model does not cover that case.
- `parseInt` on the path id and its NaN case: the id is an integer.
- Async execution and concurrent requests: handlers run one at a time.
- Static file serving, the Vite dev server, the HTML template rewrite with a random id, and the log timestamp format: I/O, randomness and locale formatting.
- The error handler re-throws after responding. That process-level effect is not modelled.
- React rendering (TaskCard, App, main, home page), the loading skeleton and the mutation wiring: UI and thin HTTP calls.
- Notifications.NotifyDueSoon: toast descriptions are not modelled, only which tasks get toasts (see Findings). Repeated data refreshes raise toasts again; the model covers one run.
- RequestLog.Truncate: strings are sequences of Unicode characters. Splitting of UTF-16 surrogate pairs is not modelled.
- RequestLog.FinishLine: the duration comes from the clock and JSON text from `stringify`; both are parameters.

## Findings

| source | as written | input that shows it | evidently intended | confidence | as-written member | corrected member |
|---|---|---|---|---|---|---|
| TaskTracker/client/src/components/Notifications.tsx:27 | the toast description calls `format`, which the file never imports, so building the first toast throws a ReferenceError and no toast is raised | one open priority-3 task due one hour from now | one toast per selected task | not executed; high | Notifications.NotifyAsWritten | Notifications.NotifyDueSoon |

=== FILE: notifications.dfy ===
/**
 * The due-soon notifier: whenever fresh task data arrives it selects the open,
 * high-priority tasks due within the next 24 hours and raises one toast for
 * each. Instants are integer milliseconds; `now` is the clock reading.
 */
module Notifications {
  import opened Outcomes
  import opened Schema

  const DayMs := 24 * 60 * 60 * 1000
  const HighPriority := 3
  const ToastTitle := "High Priority Task Due Soon"
  const ToastVariant := "destructive"

  /** A toast raised for `task`. Its description text is not part of this model. */
  datatype Toast = Toast(title: string, variant: string, task: Task)

  /** The selection rule for one task. */
  predicate DueSoon(t: Task, now: int)
    ensures DueSoon(t, now) ==> now < t.dueDate < now + DayMs
    ensures DueSoon(t, now) <==> !t.completed && t.priority == HighPriority && 0 < t.dueDate - now < DayMs
  {
    && !t.completed
    && t.priority == HighPriority
    && t.dueDate > now
    && t.dueDate - now < DayMs
  }

  /** The `filter` over the fetched tasks. */
  function HighPriorityTasks(tasks: seq<Task>, now: int): (r: seq<Task>)
    ensures |r| <= |tasks|
    ensures forall i :: 0 <= i < |r| ==> DueSoon(r[i], now)
  {
    if tasks == [] then []
    else
      if DueSoon(tasks[0], now) then [tasks[0]] + HighPriorityTasks(tasks[1..], now)
      else HighPriorityTasks(tasks[1..], now)
  }

  /** Each due-soon task is selected exactly as often as it occurs in the input, and no other task is. */
  lemma {:induction false} HighPriorityTasksCounts(tasks: seq<Task>, now: int, t: Task)
    ensures multiset(HighPriorityTasks(tasks, now))[t] == if DueSoon(t, now) then multiset(tasks)[t] else 0
  {
    if tasks != [] {
      HighPriorityTasksCounts(tasks[1..], now, t);
      assert tasks == [tasks[0]] + tasks[1..];
    }
  }

  /** One task on its own is selected or dropped by the rule alone. */
  lemma HighPriorityTasksSingle(t: Task, now: int)
    ensures HighPriorityTasks([t], now) == if DueSoon(t, now) then [t] else []
  {
    assert [t][1..] == [];
  }

  /** The filter works element by element, so the selection keeps input order. */
  lemma {:induction false} HighPriorityTasksAppend(a: seq<Task>, b: seq<Task>, now: int)
    ensures HighPriorityTasks(a + b, now) == HighPriorityTasks(a, now) + HighPriorityTasks(b, now)
  {
    if a == [] {
      assert a + b == b;
    } else {
      var ab := a + b;
      assert ab != [] && ab[0] == a[0] && ab[1..] == a[1..] + b;
      HighPriorityTasksAppend(a[1..], b, now);
      var rest := HighPriorityTasks(a[1..], now) + HighPriorityTasks(b, now);
      assert HighPriorityTasks(ab, now) == (if DueSoon(a[0], now) then [a[0]] + rest else rest);
      assert HighPriorityTasks(a, now)
             == (if DueSoon(a[0], now) then [a[0]] + HighPriorityTasks(a[1..], now) else HighPriorityTasks(a[1..], now));
    }
  }

  /** A task is selected exactly when it is in the input and meets all four conditions. */
  lemma {:induction false} SelectedIff(tasks: seq<Task>, now: int, t: Task)
    ensures t in HighPriorityTasks(tasks, now) <==> t in tasks && DueSoon(t, now)
  {
    if tasks != [] {
      SelectedIff(tasks[1..], now, t);
      assert tasks == [tasks[0]] + tasks[1..];
    }
  }

  /** Due now or earlier, due exactly 24 hours ahead, completed, or not of priority 3: never selected. */
  lemma BoundaryCases(t: Task, now: int)
    ensures t.dueDate <= now ==> !DueSoon(t, now)
    ensures t.dueDate == now + DayMs ==> !DueSoon(t, now)
    ensures t.completed ==> !DueSoon(t, now)
    ensures t.priority != HighPriority ==> !DueSoon(t, now)
    ensures !t.completed && t.priority == HighPriority && now < t.dueDate < now + DayMs ==> DueSoon(t, now)
  {
  }

  /** The effect as intended: one toast per selected task, in input order; nothing while data is missing. */
  method NotifyDueSoon(data: Option<seq<Task>>, now: int) returns (toasts: seq<Toast>)
    ensures data.None? ==> toasts == []
    ensures data.Some? ==>
      var selected := HighPriorityTasks(data.value, now);
      && |toasts| == |selected|
      && forall i :: 0 <= i < |toasts| ==> toasts[i] == Toast(ToastTitle, ToastVariant, selected[i])
  {
    toasts := [];
    if data.None? {
      return;
    }
    var selected := HighPriorityTasks(data.value, now);
    var i := 0;
    while i < |selected|
      invariant 0 <= i <= |selected|
      invariant |toasts| == i
      invariant forall k :: 0 <= k < i ==> toasts[k] == Toast(ToastTitle, ToastVariant, selected[k])
    {
      toasts := toasts + [Toast(ToastTitle, ToastVariant, selected[i])];
      i := i + 1;
    }
  }

  /**
   * The effect as written: building the first toast's description calls a
   * date formatter that is never imported, so the callback throws before the
   * first toast is raised. `failed` reports that exception.
   */
  method NotifyAsWritten(data: Option<seq<Task>>, now: int) returns (toasts: seq<Toast>, failed: bool)
    ensures toasts == []
    ensures failed <==> data.Some? && HighPriorityTasks(data.value, now) != []
  {
    toasts, failed := [], false;
    if data.None? {
      return;
    }
    var selected := HighPriorityTasks(data.value, now);
    if |selected| > 0 {
      // evaluating the description throws a ReferenceError for the first selected task
      failed := true;
    }
  }

  /** A task due in one hour is selected, so the intended effect raises a toast where the written one raises none. */
  lemma ToastLostExample(now: int)
    ensures var t := Task(1, "Pay rent", now + 3600000, HighPriority, false);
      HighPriorityTasks([t], now) == [t]
  {
  }
}

=== FILE: outcomes.dfy ===
/** Optional values and success-or-error results shared by every module of the model. */
module Outcomes {

  /** A value that may be absent (JavaScript's `undefined`). */
  datatype Option<+T> = None | Some(value: T)

  /** The outcome of an operation that either produces a value or reports an error. */
  datatype Result<+T, +E> = Success(value: T) | Failure(error: E)
}

=== FILE: routes.dfy ===
/**
 * The HTTP layer: the static-asset cache rule and the four task endpoints.
 * Each handler runs its validator and store calls in sequence, then picks
 * the status code, headers and JSON body of the response.
 */
module Routes {
  import opened Outcomes
  import opened Schema
  import opened Storage

  type Headers = map<string, string>

  const CacheControl := "Cache-Control"
  /** One year, for static assets. */
  const AssetCacheDirective := "public, max-age=31536000"
  /** Revalidate every time, for the task list. */
  const ListCacheDirective := "private, max-age=0, must-revalidate"
  /** The endings of the asset pattern `\.(js|css|png|jpg|jpeg|gif|ico)$`: a dot, an extension, the end of the URL. */
  const AssetSuffixes: seq<string> := [".js", ".css", ".png", ".jpg", ".jpeg", ".gif", ".ico"]

  const NotFoundMessage := "Task not found"
  const NotBooleanMessage := "completed must be a boolean"
  const InternalErrorMessage := "Internal server error"

  /** The JSON body of a response, or none (`send()` with no argument). */
  datatype ResponseBody =
    | TaskJson(task: Task)
    | TaskListJson(tasks: seq<Task>)
    | MessageJson(message: string)
    | NoContent

  datatype Response = Response(status: int, headers: Headers, body: ResponseBody)

  /** The requests the task endpoints answer; anything else falls through to static serving. */
  datatype Route =
    | ListTasks
    | CreateTask(body: RequestBody)
    | ToggleTask(id: int, completed: Option<Value>)
    | DeleteTask(id: int)
    | NotApi

  predicate EndsWith(s: string, suffix: string)
  {
    |suffix| <= |s| && s[|s| - |suffix|..] == suffix
  }

  /** Whether `url` ends with one of `suffixes`; the comparison is case-sensitive. */
  function EndsWithAny(url: string, suffixes: seq<string>): (r: bool)
    ensures r <==> exists i :: 0 <= i < |suffixes| && EndsWith(url, suffixes[i])
  {
    if suffixes == [] then false
    else if EndsWith(url, suffixes[0]) then true
    else
      var rest := EndsWithAny(url, suffixes[1..]);
      assert forall i :: 1 <= i < |suffixes| ==> suffixes[i] == suffixes[1..][i - 1];
      rest
  }

  /** The asset test, applied to the whole URL, query string included. */
  predicate IsStaticAsset(url: string)
    ensures IsStaticAsset(url) <==> exists i :: 0 <= i < |AssetSuffixes| && EndsWith(url, AssetSuffixes[i])
  {
    EndsWithAny(url, AssetSuffixes)
  }

  /** The cache middleware: adds the one-year directive to asset URLs and leaves other headers alone. */
  function CacheHeaders(url: string, headers: Headers): (r: Headers)
    ensures IsStaticAsset(url) ==> r == headers[CacheControl := AssetCacheDirective]
    ensures !IsStaticAsset(url) ==> r == headers
  {
    if IsStaticAsset(url) then headers[CacheControl := AssetCacheDirective] else headers
  }

  /** The asset rule spelled out: exactly the seven endings. */
  lemma StaticAssetSuffixes(url: string)
    ensures IsStaticAsset(url) <==>
      EndsWith(url, ".js") || EndsWith(url, ".css") || EndsWith(url, ".png") || EndsWith(url, ".jpg")
      || EndsWith(url, ".jpeg") || EndsWith(url, ".gif") || EndsWith(url, ".ico")
  {
    var e := AssetSuffixes;
    assert e[0] == ".js" && e[1] == ".css" && e[2] == ".png" && e[3] == ".jpg";
    assert e[4] == ".jpeg" && e[5] == ".gif" && e[6] == ".ico";
  }

  /** Upper case and a trailing query string both defeat the rule. */
  lemma StaticAssetExamples()
    ensures IsStaticAsset("/main.js")
    ensures !IsStaticAsset("/main.JS")
    ensures !IsStaticAsset("/main.js?v=2")
  {
    StaticAssetSuffixes("/main.js");
    StaticAssetSuffixes("/main.JS");
    StaticAssetSuffixes("/main.js?v=2");
    assert "/main.js"[5..] == ".js";
    assert "/main.JS"[5..] == ".JS";
  }

  /** Every row of the table passes the creation rules. */
  predicate AllWellFormed(rows: Table)
  {
    forall id :: id in rows ==> WellFormed(rows[id].title, rows[id].priority)
  }

  /** `GET /api/tasks`: 200 with every row, marked for revalidation. */
  method HandleList(store: TaskStore, headers: Headers) returns (resp: Response)
    requires store.Valid()
    ensures resp.status == 200
    ensures resp.headers == headers[CacheControl := ListCacheDirective]
    ensures resp.body.TaskListJson? && ListsTable(resp.body.tasks, store.rows)
  {
    var tasks := store.GetTasks();
    resp := Response(200, headers[CacheControl := ListCacheDirective], TaskListJson(tasks));
  }

  /**
   * `POST /api/tasks`. `storeFault` says whether the insert fails in the
   * database; the row is then not written.
   */
  method HandleCreate(store: TaskStore, headers: Headers, body: RequestBody,
                      toDate: Option<Value> -> Option<int>, storeFault: bool) returns (resp: Response)
    requires store.Valid() && AllWellFormed(store.rows)
    modifies store
    ensures store.Valid() && AllWellFormed(store.rows)
    ensures resp.headers == headers
    ensures ValidateCreate(body, toDate).Failure? ==>
      && resp == Response(400, headers, MessageJson(FirstMessage(ValidateCreate(body, toDate).error)))
      && store.rows == old(store.rows) && store.nextId == old(store.nextId)
    ensures ValidateCreate(body, toDate).Success? && storeFault ==>
      && resp == Response(500, headers, MessageJson(InternalErrorMessage))
      && store.rows == old(store.rows) && store.nextId == old(store.nextId)
    ensures ValidateCreate(body, toDate).Success? && !storeFault ==>
      && var task := NewRow(old(store.nextId), ValidateCreate(body, toDate).value);
      && resp == Response(201, headers, TaskJson(task))
      && task.id !in old(store.rows)
      && store.rows == old(store.rows)[task.id := task]
      && store.nextId > old(store.nextId)
  {
    var parsed := ValidateCreate(body, toDate);
    if parsed.Failure? {
      resp := Response(400, headers, MessageJson(FirstMessage(parsed.error)));
    } else if storeFault {
      resp := Response(500, headers, MessageJson(InternalErrorMessage));
    } else {
      var created := store.CreateTask(parsed.value);
      resp := Response(201, headers, TaskJson(created));
    }
  }

  /** `PATCH /api/tasks/:id/toggle` with the body's `completed` value (None when the key is missing). */
  method HandleToggle(store: TaskStore, headers: Headers, id: int, completed: Option<Value>) returns (resp: Response)
    requires store.Valid() && AllWellFormed(store.rows)
    modifies store
    ensures store.Valid() && AllWellFormed(store.rows) && store.nextId == old(store.nextId)
    ensures resp.headers == headers
    ensures !(completed.Some? && completed.value.Bool?) ==>
      && resp == Response(400, headers, MessageJson(NotBooleanMessage))
      && store.rows == old(store.rows)
    ensures completed.Some? && completed.value.Bool? ==>
      && store.rows == SetCompleted(old(store.rows), id, completed.value.b)
      && (id !in old(store.rows) ==> resp == Response(404, headers, MessageJson(NotFoundMessage)))
      && (id in old(store.rows) ==>
            resp == Response(200, headers, TaskJson(old(store.rows)[id].(completed := completed.value.b))))
  {
    if !(completed.Some? && completed.value.Bool?) {
      resp := Response(400, headers, MessageJson(NotBooleanMessage));
      return;
    }
    var updated := store.UpdateTask(id, completed.value.b);
    if updated.None? {
      resp := Response(404, headers, MessageJson(NotFoundMessage));
      return;
    }
    resp := Response(200, headers, TaskJson(updated.value));
  }

  /** `DELETE /api/tasks/:id`: 204 with no body, or 404 when no row had the id. */
  method HandleDelete(store: TaskStore, headers: Headers, id: int) returns (resp: Response)
    requires store.Valid() && AllWellFormed(store.rows)
    modifies store
    ensures store.Valid() && AllWellFormed(store.rows) && store.nextId == old(store.nextId)
    ensures resp.headers == headers
    ensures store.rows == Remove(old(store.rows), id)
    ensures id in old(store.rows) ==> resp == Response(204, headers, NoContent)
    ensures id !in old(store.rows) ==> resp == Response(404, headers, MessageJson(NotFoundMessage))
  {
    var success := store.DeleteTask(id);
    if !success {
      resp := Response(404, headers, MessageJson(NotFoundMessage));
      return;
    }
    resp := Response(204, headers, NoContent);
  }

  /**
   * One request through the cache middleware and then the matching handler.
   * None means no task endpoint answered: the request goes on to static serving.
   */
  method Serve(store: TaskStore, url: string, route: Route,
               toDate: Option<Value> -> Option<int>, storeFault: bool) returns (resp: Option<Response>)
    requires store.Valid() && AllWellFormed(store.rows)
    modifies store
    ensures store.Valid() && AllWellFormed(store.rows)
    ensures resp.None? <==> route.NotApi?
    ensures route.NotApi? ==> store.rows == old(store.rows)
    ensures resp.Some? && IsStaticAsset(url) && !route.ListTasks? ==>
      CacheControl in resp.value.headers && resp.value.headers[CacheControl] == AssetCacheDirective
    ensures resp.Some? && route.ListTasks? ==>
      CacheControl in resp.value.headers && resp.value.headers[CacheControl] == ListCacheDirective
    ensures store.nextId >= old(store.nextId)
    ensures !(route.CreateTask? && ValidateCreate(route.body, toDate).Success? && !storeFault) ==>
      store.nextId == old(store.nextId)
    ensures route.ListTasks? ==>
      && store.rows == old(store.rows)
      && resp.Some? && resp.value.status == 200
      && resp.value.headers == CacheHeaders(url, map[])[CacheControl := ListCacheDirective]
      && resp.value.body.TaskListJson? && ListsTable(resp.value.body.tasks, store.rows)
    ensures route.CreateTask? ==>
      var h := CacheHeaders(url, map[]);
      var parsed := ValidateCreate(route.body, toDate);
      && (parsed.Failure? ==>
            && resp == Some(Response(400, h, MessageJson(FirstMessage(parsed.error))))
            && store.rows == old(store.rows))
      && (parsed.Success? && storeFault ==>
            && resp == Some(Response(500, h, MessageJson(InternalErrorMessage)))
            && store.rows == old(store.rows))
      && (parsed.Success? && !storeFault ==>
            && var task := NewRow(old(store.nextId), parsed.value);
            && resp == Some(Response(201, h, TaskJson(task)))
            && task.id !in old(store.rows)
            && store.rows == old(store.rows)[task.id := task])
    ensures route.ToggleTask? ==>
      var h := CacheHeaders(url, map[]);
      var c := route.completed;
      && (!(c.Some? && c.value.Bool?) ==>
            resp == Some(Response(400, h, MessageJson(NotBooleanMessage))) && store.rows == old(store.rows))
      && (c.Some? && c.value.Bool? ==>
            && store.rows == SetCompleted(old(store.rows), route.id, c.value.b)
            && (route.id !in old(store.rows) ==> resp == Some(Response(404, h, MessageJson(NotFoundMessage))))
            && (route.id in old(store.rows) ==>
                  resp == Some(Response(200, h, TaskJson(old(store.rows)[route.id].(completed := c.value.b))))))
    ensures route.DeleteTask? ==>
      var h := CacheHeaders(url, map[]);
      && store.rows == Remove(old(store.rows), route.id)
      && (route.id in old(store.rows) ==> resp == Some(Response(204, h, NoContent)))
      && (route.id !in old(store.rows) ==> resp == Some(Response(404, h, MessageJson(NotFoundMessage))))
  {
    var headers := CacheHeaders(url, map[]);
    match route {
      case ListTasks =>
        var r := HandleList(store, headers);
        resp := Some(r);
      case CreateTask(body) =>
        var r := HandleCreate(store, headers, body, toDate, storeFault);
        resp := Some(r);
      case ToggleTask(id, completed) =>
        var r := HandleToggle(store, headers, id, completed);
        resp := Some(r);
      case DeleteTask(id) =>
        var r := HandleDelete(store, headers, id);
        resp := Some(r);
      case NotApi =>
        resp := None;
    }
  }
}

=== FILE: schema.dfy ===
/**
 * The shared task schema: the shape of a row of the `tasks` table, the
 * creation validator derived from it, and the labels of the three priorities.
 * Due dates are absolute instants written as integer milliseconds since the epoch.
 */
module Schema {
  import opened Outcomes

  const MinTitleLength := 1
  const MaxTitleLength := 100
  const MinPriority := 1
  const MaxPriority := 3

  /** A row of the `tasks` table. */
  datatype Task = Task(id: int, title: string, dueDate: int, priority: int, completed: bool)

  /** Creation data: the table's columns without `id` and `completed`. */
  datatype NewTask = NewTask(title: string, dueDate: int, priority: int)

  /** A JSON value inside a request body, as far as validation tells values apart. */
  datatype Value = Str(s: string) | Num(n: int) | Bool(b: bool) | Null | Obj | Arr

  /** A decoded JSON request body: its keys and their values. */
  type RequestBody = map<string, Value>

  /** One violated rule of the creation schema. */
  datatype Issue =
    | Missing(field: string)
    | WrongType(field: string, expected: string, received: Value)
    | TitleRequired
    | TitleTooLong
    | InvalidDate
    | PriorityTooSmall
    | PriorityTooLarge

  /** The rules that every task accepted for creation satisfies. */
  predicate WellFormed(title: string, priority: int)
  {
    MinTitleLength <= |title| <= MaxTitleLength && MinPriority <= priority <= MaxPriority
  }

  function Lookup(body: RequestBody, key: string): Option<Value>
  {
    if key in body then Some(body[key]) else None
  }

  function TypeName(v: Value): string
  {
    match v
    case Str(_) => "string"
    case Num(_) => "number"
    case Bool(_) => "boolean"
    case Null => "null"
    case Obj => "object"
    case Arr => "array"
  }

  /** The human-readable message of an issue, as the validator reports it. */
  function Message(issue: Issue): (m: string)
    ensures m != ""
    ensures m == "Title is required" <==> issue == TitleRequired
  {
    match issue
    case Missing(_) => "Required"
    case WrongType(_, expected, received) => "Expected " + expected + ", received " + TypeName(received)
    case TitleRequired => "Title is required"
    case TitleTooLong => "String must contain at most 100 character(s)"
    case InvalidDate => "Invalid date"
    case PriorityTooSmall => "Number must be greater than or equal to 1"
    case PriorityTooLarge => "Number must be less than or equal to 3"
  }

  /** The check on `title`: a string of 1 to 100 characters. */
  function TitleIssue(v: Option<Value>): (r: Option<Issue>)
    ensures r.None? <==> v.Some? && v.value.Str? && MinTitleLength <= |v.value.s| <= MaxTitleLength
    ensures v.None? ==> r == Some(Missing("title"))
    ensures v.Some? && v.value.Str? && v.value.s == "" ==> r == Some(TitleRequired)
  {
    match v
    case None => Some(Missing("title"))
    case Some(Str(s)) =>
      if |s| < MinTitleLength then Some(TitleRequired)
      else if |s| > MaxTitleLength then Some(TitleTooLong)
      else None
    case Some(other) => Some(WrongType("title", "string", other))
  }

  /** The check on `dueDate`: whatever the date coercion turns into a valid instant. */
  function DateIssue(v: Option<Value>, toDate: Option<Value> -> Option<int>): (r: Option<Issue>)
    ensures r.None? <==> toDate(v).Some?
    ensures r.Some? ==> r.value == InvalidDate
  {
    if toDate(v).Some? then None else Some(InvalidDate)
  }

  /** The check on `priority`: a number from 1 to 3. */
  function PriorityIssue(v: Option<Value>): (r: Option<Issue>)
    ensures r.None? <==> v.Some? && v.value.Num? && MinPriority <= v.value.n <= MaxPriority
    ensures v.None? ==> r == Some(Missing("priority"))
    ensures v.Some? && v.value.Num? && v.value.n < MinPriority ==> r == Some(PriorityTooSmall)
    ensures v.Some? && v.value.Num? && v.value.n > MaxPriority ==> r == Some(PriorityTooLarge)
  {
    match v
    case None => Some(Missing("priority"))
    case Some(Num(n)) =>
      if n < MinPriority then Some(PriorityTooSmall)
      else if n > MaxPriority then Some(PriorityTooLarge)
      else None
    case Some(other) => Some(WrongType("priority", "number", other))
  }

  function AsSeq(o: Option<Issue>): seq<Issue>
  {
    if o.Some? then [o.value] else []
  }

  /** Every violated rule, in the order of the schema's keys: title, dueDate, priority. */
  function Issues(body: RequestBody, toDate: Option<Value> -> Option<int>): (r: seq<Issue>)
    ensures |r| <= 3
    ensures r == [] <==>
      && TitleIssue(Lookup(body, "title")).None?
      && DateIssue(Lookup(body, "dueDate"), toDate).None?
      && PriorityIssue(Lookup(body, "priority")).None?
    ensures TitleIssue(Lookup(body, "title")).Some? ==> r[0] == TitleIssue(Lookup(body, "title")).value
    ensures PriorityIssue(Lookup(body, "priority")).Some? ==> r[|r| - 1] == PriorityIssue(Lookup(body, "priority")).value
  {
    AsSeq(TitleIssue(Lookup(body, "title")))
    + AsSeq(DateIssue(Lookup(body, "dueDate"), toDate))
    + AsSeq(PriorityIssue(Lookup(body, "priority")))
  }

  /**
   * The creation validator. `toDate` is the date coercion applied to the
   * `dueDate` value (or to its absence); it yields None for an invalid date.
   * Keys other than title, dueDate and priority, `id` and `completed`
   * among them, are dropped.
   */
  function ValidateCreate(body: RequestBody, toDate: Option<Value> -> Option<int>): (r: Result<NewTask, seq<Issue>>)
    ensures r.Success? <==>
      && Lookup(body, "title").Some? && body["title"].Str?
      && MinTitleLength <= |body["title"].s| <= MaxTitleLength
      && toDate(Lookup(body, "dueDate")).Some?
      && Lookup(body, "priority").Some? && body["priority"].Num?
      && MinPriority <= body["priority"].n <= MaxPriority
    ensures r.Success? ==>
      && body["title"] == Str(r.value.title)
      && body["priority"] == Num(r.value.priority)
      && toDate(Lookup(body, "dueDate")) == Some(r.value.dueDate)
      && WellFormed(r.value.title, r.value.priority)
    ensures r.Failure? ==> r.error != []
  {
    var issues := Issues(body, toDate);
    if issues != [] then
      Failure(issues)
    else
      Success(NewTask(body["title"].s, toDate(Lookup(body, "dueDate")).value, body["priority"].n))
  }

  /** The message the API reports for a rejected body: the first issue's. */
  function FirstMessage(issues: seq<Issue>): (m: string)
    requires issues != []
    ensures m != ""
    ensures m == "Title is required" <==> issues[0] == TitleRequired
  {
    Message(issues[0])
  }

  lemma EmptyTitleRejected(body: RequestBody, toDate: Option<Value> -> Option<int>)
    requires Lookup(body, "title") == Some(Str(""))
    ensures ValidateCreate(body, toDate).Failure?
    ensures FirstMessage(ValidateCreate(body, toDate).error) == "Title is required"
  {
  }

  lemma LongTitleRejected(body: RequestBody, toDate: Option<Value> -> Option<int>)
    requires Lookup(body, "title").Some? && body["title"].Str? && |body["title"].s| > MaxTitleLength
    ensures ValidateCreate(body, toDate).Failure?
    ensures ValidateCreate(body, toDate).error[0] == TitleTooLong
  {
  }

  lemma PriorityOutOfRangeRejected(body: RequestBody, toDate: Option<Value> -> Option<int>)
    requires Lookup(body, "priority").Some? && body["priority"].Num?
    requires body["priority"].n < MinPriority || body["priority"].n > MaxPriority
    ensures ValidateCreate(body, toDate).Failure?
    ensures ValidateCreate(body, toDate).error[|ValidateCreate(body, toDate).error| - 1]
            == (if body["priority"].n < MinPriority then PriorityTooSmall else PriorityTooLarge)
  {
  }

  /** The outcome depends on nothing but the three schema keys: `id`, `completed` and any other key are stripped. */
  lemma OnlySchemaKeysMatter(body: RequestBody, extra: RequestBody, toDate: Option<Value> -> Option<int>)
    requires "title" !in extra && "dueDate" !in extra && "priority" !in extra
    ensures ValidateCreate(body + extra, toDate) == ValidateCreate(body, toDate)
  {
    assert Lookup(body + extra, "title") == Lookup(body, "title");
    assert Lookup(body + extra, "dueDate") == Lookup(body, "dueDate");
    assert Lookup(body + extra, "priority") == Lookup(body, "priority");
  }

  /** The fixed map from priority to its label. */
  const PriorityLabels: map<int, string> := map[1 := "Low", 2 := "Medium", 3 := "High"]

  function PriorityLabel(priority: int): (name: Option<string>)
    ensures name.Some? <==> MinPriority <= priority <= MaxPriority
    ensures priority == 1 ==> name == Some("Low")
    ensures priority == 2 ==> name == Some("Medium")
    ensures priority == 3 ==> name == Some("High")
  {
    if priority in PriorityLabels then Some(PriorityLabels[priority]) else None
  }

  /** The label map is defined exactly on the valid priorities and gives each a different label. */
  lemma PriorityLabelsExact()
    ensures forall p :: p in PriorityLabels <==> MinPriority <= p <= MaxPriority
    ensures forall p, q :: p in PriorityLabels && q in PriorityLabels && p != q ==> PriorityLabels[p] != PriorityLabels[q]
  {
  }
}

=== FILE: server_log.dfy ===
/**
 * The server entry point's two pieces of logic: the request-logging
 * middleware, which writes one line per finished API request, and the final
 * error handler, which turns an uncaught error into a JSON response.
 */
module RequestLog {
  import opened Outcomes
  import Routes

  const MaxLineLength := 80
  const Ellipsis: char := '\U{2026}'
  const ApiPrefix := "/api"
  const DefaultErrorStatus := 500
  const DefaultErrorMessage := "Internal Server Error"

  predicate StartsWith(s: string, prefix: string)
  {
    |prefix| <= |s| && s[..|prefix|] == prefix
  }

  /** Decimal digits of a natural number. */
  function Digits(n: nat): (s: string)
    ensures |s| >= 1
    ensures forall i :: 0 <= i < |s| ==> '0' <= s[i] <= '9'
  {
    var d := ['0' + (n % 10) as char];
    if n < 10 then d else Digits(n / 10) + d
  }

  /** The number a string of decimal digits spells, most significant digit first. */
  function DecimalValue(s: string): int
  {
    if s == [] then 0 else DecimalValue(s[..|s| - 1]) * 10 + (s[|s| - 1] as int - '0' as int)
  }

  /** The digits spell `n`, with no leading zero. */
  lemma {:induction false} DigitsValue(n: nat)
    ensures DecimalValue(Digits(n)) == n
    ensures |Digits(n)| > 1 ==> Digits(n)[0] != '0'
  {
    var s := Digits(n);
    if n >= 10 {
      DigitsValue(n / 10);
      var d := ['0' + (n % 10) as char];
      assert s == Digits(n / 10) + d;
      assert s[..|s| - 1] == Digits(n / 10);
      assert s[0] == Digits(n / 10)[0];
      if |Digits(n / 10)| == 1 {
        assert DecimalValue(Digits(n / 10)) == Digits(n / 10)[0] as int - '0' as int;
      }
    } else {
      assert s[..|s| - 1] == [];
    }
  }

  /** How a template literal prints an integer: an optional minus sign, then the digits of its magnitude. */
  function NumberText(n: int): (s: string)
    ensures |s| >= 1
    ensures s[0] == '-' <==> n < 0
    ensures forall i :: (if n < 0 then 1 else 0) <= i < |s| ==> '0' <= s[i] <= '9'
    ensures n >= 0 ==> DecimalValue(s) == n
    ensures n < 0 ==> DecimalValue(s[1..]) == -n
    ensures var magnitude := if n < 0 then s[1..] else s; |magnitude| > 1 ==> magnitude[0] != '0'
  {
    if n < 0 then
      DigitsValue(-n);
      assert ("-" + Digits(-n))[1..] == Digits(-n);
      "-" + Digits(-n)
    else
      DigitsValue(n);
      Digits(n)
  }

  /** What the response's `json` wrapper captured: whether the value is truthy, and its JSON text. */
  datatype Capture = Capture(truthy: bool, text: string)

  /** The capture a handler's response leaves behind; every JSON body sent here is an object or an array. */
  function CaptureOf(body: Routes.ResponseBody, stringify: Routes.ResponseBody -> string): (c: Option<Capture>)
    ensures c.None? <==> body.NoContent?
    ensures c.Some? ==> c.value.truthy && c.value.text == stringify(body)
  {
    if body.NoContent? then None else Some(Capture(true, stringify(body)))
  }

  /** The head of the line: verb, path, status code and duration. */
  function Head(verb: string, path: string, status: int, durationMs: int): (h: string)
    ensures StartsWith(h, verb + " " + path + " ")
    ensures |h| > |verb| + |path| + 2
    ensures h[|h| - 2..] == "ms"
  {
    verb + " " + path + " " + NumberText(status) + " in " + NumberText(durationMs) + "ms"
  }

  /** What follows the head: " :: " and the JSON text, only when a truthy value was captured. */
  function Tail(captured: Option<Capture>): (t: string)
    ensures t == "" <==> !(captured.Some? && captured.value.truthy)
    ensures t != "" ==> StartsWith(t, " :: ") && t[4..] == captured.value.text
  {
    if captured.Some? && captured.value.truthy then " :: " + captured.value.text else ""
  }

  /** A response sent with a JSON body adds " :: " and its text to the line; a 204 with no body adds nothing. */
  lemma CaptureTail(body: Routes.ResponseBody, stringify: Routes.ResponseBody -> string)
    ensures Tail(CaptureOf(body, stringify)) == if body.NoContent? then "" else " :: " + stringify(body)
  {
  }

  /** Cuts a line longer than 80 characters to its first 79 followed by an ellipsis. */
  function Truncate(line: string): (r: string)
    ensures |r| <= MaxLineLength
    ensures |line| <= MaxLineLength ==> r == line
    ensures |line| > MaxLineLength ==>
      |r| == MaxLineLength && r[..MaxLineLength - 1] == line[..MaxLineLength - 1] && r[MaxLineLength - 1] == Ellipsis
  {
    if |line| > MaxLineLength then line[..MaxLineLength - 1] + [Ellipsis] else line
  }

  /** A prefix of at most 79 characters survives truncation. */
  lemma TruncateKeepsShortPrefix(line: string, prefix: string)
    requires StartsWith(line, prefix) && |prefix| < MaxLineLength
    ensures StartsWith(Truncate(line), prefix)
  {
    if |line| > MaxLineLength {
      assert Truncate(line)[..|prefix|] == line[..MaxLineLength - 1][..|prefix|];
    }
  }

  /**
   * The `finish` callback: None for a path outside the API, otherwise the
   * line, built by successive appends and then cut to length.
   */
  method FinishLine(verb: string, path: string, status: int, durationMs: int, captured: Option<Capture>)
    returns (line: Option<string>)
    ensures line.Some? <==> StartsWith(path, ApiPrefix)
    ensures line.Some? ==> |line.value| <= MaxLineLength
    ensures line.Some? ==> line.value == Truncate(Head(verb, path, status, durationMs) + Tail(captured))
  {
    if !StartsWith(path, ApiPrefix) {
      return None;
    }
    var logLine := Head(verb, path, status, durationMs);
    if captured.Some? && captured.value.truthy {
      logLine := logLine + (" :: " + captured.value.text);
    }
    assert logLine == Head(verb, path, status, durationMs) + Tail(captured);
    if |logLine| > MaxLineLength {
      logLine := logLine[..MaxLineLength - 1] + [Ellipsis];
    }
    line := Some(logLine);
  }

  /** The head always begins the appended line, so a short head is always visible in the log. */
  lemma HeadLeadsLine(verb: string, path: string, status: int, durationMs: int, captured: Option<Capture>)
    requires |Head(verb, path, status, durationMs)| < MaxLineLength
    ensures
      var head := Head(verb, path, status, durationMs);
      StartsWith(Truncate(head + Tail(captured)), head)
  {
    var head := Head(verb, path, status, durationMs);
    var full := head + Tail(captured);
    assert full[..|head|] == head;
    TruncateKeepsShortPrefix(full, head);
  }

  /** JavaScript truthiness of an optional number: present and non-zero. */
  predicate TruthyNumber(n: Option<int>)
  {
    n.Some? && n.value != 0
  }

  /** The error handler's status: `err.status`, else `err.statusCode`, else 500. */
  function ErrorStatus(status: Option<int>, statusCode: Option<int>): (r: int)
    ensures r != 0
    ensures TruthyNumber(status) ==> r == status.value
    ensures !TruthyNumber(status) && TruthyNumber(statusCode) ==> r == statusCode.value
    ensures !TruthyNumber(status) && !TruthyNumber(statusCode) ==> r == DefaultErrorStatus
  {
    if TruthyNumber(status) then status.value
    else if TruthyNumber(statusCode) then statusCode.value
    else DefaultErrorStatus
  }

  /** The error handler's message: `err.message` when non-empty, else the generic text. */
  function ErrorMessage(message: Option<string>): (r: string)
    ensures r != ""
    ensures message.Some? && message.value != "" ==> r == message.value
    ensures !(message.Some? && message.value != "") ==> r == DefaultErrorMessage
  {
    if message.Some? && message.value != "" then message.value else DefaultErrorMessage
  }

  /** The response the error handler sends before re-throwing. */
  function ErrorResponse(status: Option<int>, statusCode: Option<int>, message: Option<string>,
                         headers: Routes.Headers): (resp: Routes.Response)
    ensures resp.status != 0 && resp.body.MessageJson? && resp.body.message != ""
    ensures resp.status == ErrorStatus(status, statusCode) && resp.body.message == ErrorMessage(message)
  {
    Routes.Response(ErrorStatus(status, statusCode), headers, Routes.MessageJson(ErrorMessage(message)))
  }
}

=== FILE: storage.dfy ===
/**
 * The task store: the persistent `tasks` table seen as a map from id to row,
 * with the serial counter that hands out fresh ids. Each SQL statement of the
 * store is a map operation; the class below applies them in place.
 */
module Storage {
  import opened Outcomes
  import opened Schema

  type Table = map<int, Task>

  /** Every row is stored under its own id. */
  predicate KeyedById(rows: Table)
  {
    forall id :: id in rows ==> rows[id].id == id
  }

  /** `s` lists every row of `rows` exactly once, in some order. */
  predicate ListsTable(s: seq<Task>, rows: Table)
  {
    && |s| == |rows|
    && (forall i :: 0 <= i < |s| ==> s[i].id in rows && rows[s[i].id] == s[i])
    && (forall i, j :: 0 <= i < j < |s| ==> s[i].id != s[j].id)
    && (forall id :: id in rows ==> rows[id] in s)
  }

  /** The row that `INSERT ... RETURNING` produces for `data` under `id`. */
  function NewRow(id: int, data: NewTask): (t: Task)
    ensures t.id == id && !t.completed
    ensures t.title == data.title && t.dueDate == data.dueDate && t.priority == data.priority
    ensures WellFormed(data.title, data.priority) ==> WellFormed(t.title, t.priority)
  {
    Task(id, data.title, data.dueDate, data.priority, false)
  }

  /** `UPDATE tasks SET completed = c WHERE id = id`. */
  function SetCompleted(rows: Table, id: int, completed: bool): (r: Table)
    ensures r.Keys == rows.Keys
    ensures id in rows ==> r[id].completed == completed
    ensures forall k :: k in rows && k != id ==> r[k] == rows[k]
  {
    if id in rows then rows[id := rows[id].(completed := completed)] else rows
  }

  /** `DELETE FROM tasks WHERE id = id`. */
  function Remove(rows: Table, id: int): (r: Table)
    ensures id !in r
    ensures forall k :: k in rows && k != id ==> k in r && r[k] == rows[k]
    ensures |r| == if id in rows then |rows| - 1 else |rows|
  {
    rows - {id}
  }

  /** The update touches only `completed`, only on the matching row; an absent id changes nothing. */
  lemma SetCompletedFrame(rows: Table, id: int, completed: bool)
    ensures SetCompleted(rows, id, completed).Keys == rows.Keys
    ensures forall k :: k in rows && k != id ==> SetCompleted(rows, id, completed)[k] == rows[k]
    ensures id in rows ==>
      var row := SetCompleted(rows, id, completed)[id];
      row.completed == completed && row.id == rows[id].id && row.title == rows[id].title
      && row.dueDate == rows[id].dueDate && row.priority == rows[id].priority
    ensures id !in rows ==> SetCompleted(rows, id, completed) == rows
  {
  }

  /** Completing and then reopening a row that started open restores the table. */
  lemma ToggleRoundTrip(rows: Table, id: int)
    requires id in rows && !rows[id].completed
    ensures SetCompleted(SetCompleted(rows, id, true), id, false) == rows
  {
    assert rows[id].(completed := true).(completed := false) == rows[id];
  }

  /** The delete removes exactly the matching row. */
  lemma RemoveFrame(rows: Table, id: int)
    ensures id !in Remove(rows, id)
    ensures Remove(rows, id).Keys == rows.Keys - {id}
    ensures forall k :: k in Remove(rows, id) ==> Remove(rows, id)[k] == rows[k]
  {
  }

  /** The rows whose id lies below `bound`. */
  function Below(rows: Table, bound: int): Table
  {
    map id | id in rows && id < bound :: rows[id]
  }

  class TaskStore {
    /** The rows of the table, by id. */
    var rows: Table
    /** The next value of the `id` serial sequence. */
    var nextId: int

    ghost predicate Valid()
      reads this
    {
      && KeyedById(rows)
      && 1 <= nextId
      && forall id :: id in rows ==> 1 <= id < nextId
    }

    /** An empty table whose serial starts at 1. */
    constructor ()
      ensures Valid()
      ensures rows == map[] && nextId == 1
    {
      rows := map[];
      nextId := 1;
    }

    /** `SELECT * FROM tasks`: every row once. The scan goes by id here; callers may rely on no order. */
    method GetTasks() returns (result: seq<Task>)
      requires Valid()
      ensures ListsTable(result, rows)
    {
      result := [];
      var id := 1;
      assert Below(rows, id) == map[];
      while id < nextId
        invariant 1 <= id <= nextId
        invariant ListsTable(result, Below(rows, id))
      {
        if id in rows {
          assert Below(rows, id + 1) == Below(rows, id)[id := rows[id]];
          result := result + [rows[id]];
        } else {
          assert Below(rows, id + 1) == Below(rows, id);
        }
        id := id + 1;
      }
      assert Below(rows, id) == rows;
    }

    /** `INSERT ... RETURNING`: a fresh id, `completed` false, and the table gains exactly that row. */
    method CreateTask(data: NewTask) returns (task: Task)
      requires Valid()
      modifies this
      ensures Valid()
      ensures task == NewRow(old(nextId), data)
      ensures task.id !in old(rows)
      ensures rows == old(rows)[task.id := task]
      ensures nextId > old(nextId)
    {
      task := NewRow(nextId, data);
      rows := rows[nextId := task];
      nextId := nextId + 1;
    }

    /** `UPDATE ... RETURNING`: the updated row, or None when no row has `id`. */
    method UpdateTask(id: int, completed: bool) returns (updated: Option<Task>)
      requires Valid()
      modifies this`rows
      ensures Valid()
      ensures rows == SetCompleted(old(rows), id, completed)
      ensures updated.Some? <==> id in old(rows)
      ensures updated.Some? ==> updated.value == old(rows)[id].(completed := completed) && updated.value == rows[id]
    {
      if id in rows {
        var row := rows[id].(completed := completed);
        rows := rows[id := row];
        updated := Some(row);
      } else {
        updated := None;
      }
    }

    /** `DELETE ... RETURNING`: whether a row went away. */
    method DeleteTask(id: int) returns (deleted: bool)
      requires Valid()
      modifies this`rows
      ensures Valid()
      ensures deleted <==> id in old(rows)
      ensures rows == Remove(old(rows), id)
    {
      deleted := id in rows;
      rows := rows - {id};
    }
  }

  /** Deleting the same id twice reports true, then false. */
  method DeleteTwice(store: TaskStore, id: int) returns (first: bool, second: bool)
    requires store.Valid() && id in store.rows
    modifies store`rows
    ensures store.Valid()
    ensures first && !second
    ensures store.rows == Remove(old(store.rows), id)
  {
    first := store.DeleteTask(id);
    second := store.DeleteTask(id);
  }
}

=== FILE: task_list.dfy ===
/**
 * The task list view: the fetched tasks split into an active and a completed
 * list, each ordered by priority (highest first) and then by due date
 * (earliest first), and the counts shown on the two tabs.
 */
module TaskList {
  import opened Outcomes
  import opened Schema

  /** The comparator handed to the sort: negative when `a` belongs before `b`. */
  function Compare(a: Task, b: Task): (r: int)
    ensures r <= 0 <==> a.priority > b.priority || (a.priority == b.priority && a.dueDate <= b.dueDate)
  {
    if a.priority != b.priority then b.priority - a.priority else a.dueDate - b.dueDate
  }

  /** Each task may stand before the next one. */
  predicate Ordered(s: seq<Task>)
  {
    forall i :: 0 <= i < |s| - 1 ==> Compare(s[i], s[i + 1]) <= 0
  }

  /** Inserts `t` before the first element it may precede, so it stays ahead of its ties. */
  function Insert(t: Task, s: seq<Task>): (r: seq<Task>)
    requires Ordered(s)
    ensures Ordered(r)
    ensures multiset(r) == multiset(s) + multiset{t}
    ensures |r| == |s| + 1
    ensures r[0] == t || (s != [] && r[0] == s[0])
  {
    if s == [] then [t]
    else if Compare(t, s[0]) <= 0 then [t] + s
    else
      var rest := Insert(t, s[1..]);
      assert Compare(s[0], rest[0]) <= 0;
      assert s == [s[0]] + s[1..];
      [s[0]] + rest
  }

  /** A stable insertion sort by `Compare`. */
  function Sort(s: seq<Task>): (r: seq<Task>)
    ensures Ordered(r)
    ensures multiset(r) == multiset(s)
  {
    if s == [] then []
    else
      assert s == [s[0]] + s[1..];
      Insert(s[0], Sort(s[1..]))
  }

  /** The tasks of `s` that tie on the sort key (priority, due date), in their order in `s`. */
  function Ties(s: seq<Task>, priority: int, dueDate: int): seq<Task>
  {
    if s == [] then []
    else if s[0].priority == priority && s[0].dueDate == dueDate then [s[0]] + Ties(s[1..], priority, dueDate)
    else Ties(s[1..], priority, dueDate)
  }

  /** Insertion puts `t` ahead of every task it ties with. */
  lemma {:induction false} InsertKeepsTies(t: Task, s: seq<Task>, priority: int, dueDate: int)
    requires Ordered(s)
    ensures Ties(Insert(t, s), priority, dueDate)
            == (if t.priority == priority && t.dueDate == dueDate then [t] else []) + Ties(s, priority, dueDate)
  {
    if s == [] {
      assert Insert(t, s) == [t] && [t][1..] == [];
    } else if Compare(t, s[0]) <= 0 {
      assert Insert(t, s) == [t] + s && ([t] + s)[1..] == s;
    } else {
      var rest := Insert(t, s[1..]);
      InsertKeepsTies(t, s[1..], priority, dueDate);
      assert Insert(t, s) == [s[0]] + rest && ([s[0]] + rest)[1..] == rest;
    }
  }

  /** The sort is stable: tasks that tie keep their input order. */
  lemma {:induction false} SortIsStable(s: seq<Task>, priority: int, dueDate: int)
    ensures Ties(Sort(s), priority, dueDate) == Ties(s, priority, dueDate)
  {
    if s != [] {
      SortIsStable(s[1..], priority, dueDate);
      InsertKeepsTies(s[0], Sort(s[1..]), priority, dueDate);
    }
  }

  /** The tasks whose `completed` flag equals `completed`, in input order. */
  function Filter(s: seq<Task>, completed: bool): (r: seq<Task>)
    ensures forall i :: 0 <= i < |r| ==> r[i].completed == completed
    ensures forall t :: t in r ==> t.completed == completed
    ensures multiset(r) <= multiset(s)
  {
    if s == [] then []
    else if s[0].completed == completed then
      assert s == [s[0]] + s[1..];
      [s[0]] + Filter(s[1..], completed)
    else
      assert s == [s[0]] + s[1..];
      Filter(s[1..], completed)
  }

  /** The filter works element by element: it keeps input order. */
  lemma {:induction false} FilterAppend(a: seq<Task>, b: seq<Task>, completed: bool)
    ensures Filter(a + b, completed) == Filter(a, completed) + Filter(b, completed)
  {
    if a == [] {
      assert a + b == b;
    } else {
      var ab := a + b;
      assert ab != [] && ab[0] == a[0] && ab[1..] == a[1..] + b;
      FilterAppend(a[1..], b, completed);
    }
  }

  /** Filtering by flag and picking the tasks of one sort key commute. */
  lemma {:induction false} TiesOfFilter(s: seq<Task>, completed: bool, priority: int, dueDate: int)
    ensures Ties(Filter(s, completed), priority, dueDate) == Filter(Ties(s, priority, dueDate), completed)
  {
    if s != [] {
      TiesOfFilter(s[1..], completed, priority, dueDate);
      if s[0].completed == completed {
        assert Filter(s, completed) == [s[0]] + Filter(s[1..], completed);
        assert ([s[0]] + Filter(s[1..], completed))[1..] == Filter(s[1..], completed);
      }
      if s[0].priority == priority && s[0].dueDate == dueDate {
        assert Ties(s, priority, dueDate) == [s[0]] + Ties(s[1..], priority, dueDate);
        assert ([s[0]] + Ties(s[1..], priority, dueDate))[1..] == Ties(s[1..], priority, dueDate);
      }
    }
  }

  /** Tasks that tie on priority and due date appear in each list in the order they were fetched. */
  lemma ListsKeepFetchOrderOfTies(data: Option<seq<Task>>, priority: int, dueDate: int)
    ensures Ties(ActiveTasks(data), priority, dueDate) == Filter(Ties(TasksOrEmpty(data), priority, dueDate), false)
    ensures Ties(CompletedTasks(data), priority, dueDate) == Filter(Ties(TasksOrEmpty(data), priority, dueDate), true)
  {
    SortIsStable(Filter(TasksOrEmpty(data), false), priority, dueDate);
    SortIsStable(Filter(TasksOrEmpty(data), true), priority, dueDate);
    TiesOfFilter(TasksOrEmpty(data), false, priority, dueDate);
    TiesOfFilter(TasksOrEmpty(data), true, priority, dueDate);
  }

  /** Missing data (not yet fetched) reads as no tasks. */
  function TasksOrEmpty(data: Option<seq<Task>>): (r: seq<Task>)
    ensures data.None? ==> r == []
    ensures data.Some? ==> r == data.value
  {
    if data.Some? then data.value else []
  }

  function ActiveTasks(data: Option<seq<Task>>): (r: seq<Task>)
    ensures forall i :: 0 <= i < |r| ==> !r[i].completed
    ensures multiset(r) == multiset(Filter(TasksOrEmpty(data), false))
    ensures Ordered(r)
  {
    var r := Sort(Filter(TasksOrEmpty(data), false));
    assert forall i :: 0 <= i < |r| ==> r[i] in multiset(Filter(TasksOrEmpty(data), false));
    r
  }

  function CompletedTasks(data: Option<seq<Task>>): (r: seq<Task>)
    ensures forall i :: 0 <= i < |r| ==> r[i].completed
    ensures multiset(r) == multiset(Filter(TasksOrEmpty(data), true))
    ensures Ordered(r)
  {
    var r := Sort(Filter(TasksOrEmpty(data), true));
    assert forall i :: 0 <= i < |r| ==> r[i] in multiset(Filter(TasksOrEmpty(data), true));
    r
  }

  /** The two filters split the input: every task lands in exactly one of them. */
  lemma {:induction false} FilterSplits(s: seq<Task>)
    ensures multiset(Filter(s, false)) + multiset(Filter(s, true)) == multiset(s)
  {
    if s != [] {
      FilterSplits(s[1..]);
      assert s == [s[0]] + s[1..];
    }
  }

  /** The active and completed lists together are a permutation of the input. */
  lemma Partition(data: Option<seq<Task>>)
    ensures multiset(ActiveTasks(data)) + multiset(CompletedTasks(data)) == multiset(TasksOrEmpty(data))
    ensures |ActiveTasks(data)| + |CompletedTasks(data)| == |TasksOrEmpty(data)|
  {
    FilterSplits(TasksOrEmpty(data));
    assert |multiset(ActiveTasks(data))| == |ActiveTasks(data)|;
    assert |multiset(CompletedTasks(data))| == |CompletedTasks(data)|;
    assert |multiset(TasksOrEmpty(data))| == |TasksOrEmpty(data)|;
  }

  /** What `Ordered` means for neighbours: priority never rises, and among equal priorities the due date never falls. */
  lemma OrderedNeighbours(s: seq<Task>, i: int)
    requires Ordered(s) && 0 <= i < |s| - 1
    ensures s[i].priority >= s[i + 1].priority
    ensures s[i].priority == s[i + 1].priority ==> s[i].dueDate <= s[i + 1].dueDate
  {
    assert Compare(s[i], s[i + 1]) <= 0;
  }

  lemma UndefinedDataIsEmpty()
    ensures ActiveTasks(None) == [] && CompletedTasks(None) == []
  {
  }

  /** The numbers on the "Active" and "Completed" tabs. */
  function TabCounts(data: Option<seq<Task>>): (counts: (nat, nat))
    ensures counts.0 == |ActiveTasks(data)| && counts.1 == |CompletedTasks(data)|
    ensures counts.0 + counts.1 == |TasksOrEmpty(data)|
  {
    Partition(data);
    (|ActiveTasks(data)|, |CompletedTasks(data)|)
  }
}
